=== FILE: README.md ===
# Diffuse transmitter (Mitsuba 3 `difftrans` BSDF) in Dafny

This project models `DiffuseTransmitter`, the `difftrans` scattering model of
Mitsuba 3. The material reflects nothing. Light entering from one side leaves
the other side in a cosine-weighted (Lambertian) lobe, scaled by a
transmittance texture. The model covers the four scattering routines
(`sample`, `eval`, `pdf`, `eval_pdf`), the raw transmittance query
`eval_diffuse_reflectance`, and the constructor's capability flags. It proves
how these routines agree with one another.

Modelling choices:

- The main model is the scalar variant: one lane per call, so a mask is a
  `bool`. In that variant `dr::any_or<true>(m)` is `m` and
  `dr::none_or<false>(m)` is `!m`.
- `Float` is `real`. `InvPi` is the decimal expansion of 1/pi. The proofs use only its positivity.
- A spectrum is a `seq<real>` of four channels, as in the spectral variants.
- The transmittance texture is a total function from the surface interaction to
  a spectrum that is non-negative on every channel (`BSDFBase.Texture`).
- The cosine-hemisphere warp is a parameter of `Sample`. Its type
  `Geometry.HemisphereWarp` requires only that every image has `z >= 0`.
- `BSDFContext::is_enabled` is defined in the BSDF base header, which is not
  part of this model. Here it is flag-set membership plus an optional
  component selection (`BSDFBase.IsEnabled`).
- Wide builds, where one call carries many lanes, are modelled separately in
  `Lanes`. There a mask is reduced to one branch decision by Dr.Jit's
  `any_or<default>` and `none_or<default>`. Dr.Jit is not part of this model.
  Its reductions are taken to test the lanes on a packet and to return the
  default, without evaluating the mask, on a JIT array. The two are dual
  (`NoneOrIsNotAnyOr`). On a packet of one lane the wide sampler is the scalar
  one (`SinglePacketLaneIsScalar`).
- Each routine opens with `MI_MASKED_FUNCTION`. That macro is defined outside
  this file and is not part of this model. The wide model assumes that it
  passes the `active` argument on to the body unchanged, on both backends. The
  per-lane statements about wide `eval`, `pdf` and `eval_pdf` rest on that
  assumption. If the macro replaced the mask on a JIT array (by setting every
  lane active, say), those statements would describe the replaced mask: on JIT
  there would then be no inactive lanes, so `EvalWide`'s "inactive lanes get
  zero", `PdfWideInactiveLane` and `WideFusionBreaksOnInactiveLane` would
  apply on a packet only. The statements about active lanes, and the sampling
  defect under "## Findings", do not depend on the mask of inactive lanes.
- Modules: `Geometry` (directions), `Spectra` (spectra), `BSDFBase` (flags,
  context, sample record, texture), `DiffTrans` (the material),
  `DiffTransProperties` (lemmas relating the routines), `Lanes` (the wide
  routines) and `LanesProperties` (lemmas relating wide and scalar results).

Mitsuba's BSDF interface pairs `sample` with `pdf`: the density stored in a
sample record is meant to be the one that `pdf` gives the sampled direction, so
that a caller can weight the sample by `eval / pdf`. The code breaks this at
grazing incidence (`cos_theta_i == 0`). There, `sample` keeps the drawn
direction above the surface, reports a positive density and returns the full
weight. But `pdf` and `eval` return zero for that direction, because the gate's
product is zero. `SamplePdfConsistency` is therefore proved only for
`cos_theta_i != 0`. `GrazingSampleMismatch` states the failure.

The mask is handled differently by the routines. In the scalar build, `eval`,
`pdf` and `eval_pdf` return zero for an inactive lane
(`InactiveLaneIsInert`). `sample` does not zero an inactive lane's record: it
still draws the direction and fills in the density, eta and sampled type, and
only the weight is masked (line 111). `InactiveSampleKeepsRecord` states this.
In a wide build, `pdf` ends with a selection on the hemisphere test alone
(line 150), and that selection does not look at the mask. So once the call has
not returned early, an inactive lane whose directions lie on opposite sides
gets the cosine density. `PdfWideInactiveLane` states this, and
`WideFusionBreaksOnInactiveLane` shows that wide `eval_pdf` then disagrees
with wide `pdf` on that lane. Active lanes are unaffected (`Lanes.PdfWide`).

## Model

| member | source | states |
|---|---|---|
| DiffTrans.New | mitsuba3/src/bsdfs/difftrans.cpp:72-77 | flags are exactly {DiffuseTransmission, FrontSide, BackSide}; one component carrying those flags; an unset transmittance defaults to 0.5 on every channel, a given one is kept |
| DiffTrans.Sample | mitsuba3/src/bsdfs/difftrans.cpp:83-112 | disabled context gives the zero record and zero weight whatever the mask; otherwise x and y come from the warp; z is negated exactly when the lane is active and cos_theta_i > 0 (then wo.z <= 0, else wo.z >= 0); pdf = abs(cos_theta_o)/pi >= 0; eta 1, type DiffuseTransmission, component 0; weight is the transmittance iff active and pdf > 0, zero otherwise |
| DiffTrans.Eval | mitsuba3/src/bsdfs/difftrans.cpp:114-132 | zero unless the lane is active, the directions are on opposite sides and the context enables diffuse transmission; where all three hold, each channel is transmittance / pi * abs(cos_theta_o); never negative |
| DiffTrans.Pdf | mitsuba3/src/bsdfs/difftrans.cpp:134-151 | non-negative; positive if and only if the same gate passes; equals abs(cos_theta_o)/pi where it passes |
| DiffTrans.EvalPdf | mitsuba3/src/bsdfs/difftrans.cpp:153-174 | both parts zero when the gate fails; energy and density formulas of eval and pdf where it passes |
| DiffTrans.EvalDiffuseReflectance | mitsuba3/src/bsdfs/difftrans.cpp:176-179 | the albedo estimate is non-negative on every channel (its agreement with the sample weight is SampleWeightIsDiffuseReflectance) |
| DiffTransProperties.TransmitsIffOppositeSides | mitsuba3/src/bsdfs/difftrans.cpp:118-125 | the evaluation gate passes if and only if the lane is active, the context enables diffuse transmission and the two directions lie strictly on opposite sides, in either order (front to back or back to front); grazing directions never pass |
| DiffTransProperties.SameHemisphereIsZero | mitsuba3/src/bsdfs/difftrans.cpp:114-174 | when cos_theta_i * cos_theta_o >= 0, eval, pdf and eval_pdf all return exactly zero, for every context and mask |
| DiffTransProperties.InactiveLaneIsInert | mitsuba3/src/bsdfs/difftrans.cpp:83-174 | an inactive lane gets zero energy and density, a zero sample weight, and an unflipped sampled direction |
| DiffTransProperties.InactiveSampleKeepsRecord | mitsuba3/src/bsdfs/difftrans.cpp:97-111 | with the context enabled and an upward draw, sample on an inactive lane still reports density z/pi > 0, so the record is not the zero record; only the weight is zero |
| DiffTransProperties.DisabledContextIsZero | mitsuba3/src/bsdfs/difftrans.cpp:83-174 | a context without diffuse transmission makes sample return the all-zero record (pdf 0) and zero weight, and eval, pdf, eval_pdf return zero, whatever the mask |
| DiffTransProperties.EvalPdfIsEvalAndPdf | mitsuba3/src/bsdfs/difftrans.cpp:153-174 | eval_pdf equals the pair (eval, pdf) on every input |
| DiffTransProperties.EvalIsPdfTimesTransmittance | mitsuba3/src/bsdfs/difftrans.cpp:128-150 | on every input, each channel of eval is the transmittance times pdf |
| DiffTransProperties.SampleCrossesSurface | mitsuba3/src/bsdfs/difftrans.cpp:97-103 | an active, enabled, non-grazing sample with positive density lies on the side opposite wi, so it passes the evaluation gate |
| DiffTransProperties.SamplePdfConsistency | mitsuba3/src/bsdfs/difftrans.cpp:97-104 | for an enabled context, an active lane, cos_theta_i != 0 and bs.pdf > 0, pdf at bs.wo equals bs.pdf |
| DiffTransProperties.SampleWeightConsistency | mitsuba3/src/bsdfs/difftrans.cpp:104-111 | under the same conditions, eval at bs.wo equals the sample weight times bs.pdf on every channel (the weight is eval / pdf) |
| DiffTransProperties.SampleWeightIsDiffuseReflectance | mitsuba3/src/bsdfs/difftrans.cpp:109-111 | the weight of a valid sample equals the raw diffuse-reflectance query |
| DiffTransProperties.GrazingSampleMismatch | mitsuba3/src/bsdfs/difftrans.cpp:100-104 | at cos_theta_i == 0 with an upward draw, sample reports a positive pdf and the full weight, while pdf and eval at that direction are zero |
| DiffTransProperties.EnergyBound | mitsuba3/src/bsdfs/difftrans.cpp:128-129 | for a unit wo and transmittance in [0,1] per channel, each channel of eval lies in [0, 1/pi], and so does pdf |
| DiffTransProperties.SamplesStayWithinCapabilities | mitsuba3/src/bsdfs/difftrans.cpp:74-76 | every record sample produces names an existing component, and its sampled type lies within the declared flags and within that component's flags; no reflective lobe is declared or sampled |
| DiffTransProperties.NormalIncidence | mitsuba3/src/bsdfs/difftrans.cpp:97-111 | with wi = (0,0,1) and the draw (0,0,1), sample gives wo = (0,0,-1), pdf 1/pi and the unweighted transmittance; pdf there is 1/pi and eval is transmittance / pi |
| Lanes.DrawLanes | mitsuba3/src/bsdfs/difftrans.cpp:97-111 | lane i of the result is the drawing step on lane i with its own flip decision, for every lane |
| Lanes.SampleLanes | mitsuba3/src/bsdfs/difftrans.cpp:83-112 | the corrected wide sampler: every lane gets exactly what the scalar sample gives it |
| Lanes.SampleWide | mitsuba3/src/bsdfs/difftrans.cpp:83-112 | the as-written wide sampler: disabled gives every lane the zero record; otherwise a lane whose own flip decision equals the call's any_or decision gets exactly its scalar result, and every other lane gets its scalar direction mirrored through the surface, with the same density, eta, sampled type, component and weight |
| Lanes.EvalWide | mitsuba3/src/bsdfs/difftrans.cpp:114-132 | wide eval gives every lane exactly its scalar value on both backends, so lanes never influence one another and inactive lanes get zero |
| Lanes.PdfWide | mitsuba3/src/bsdfs/difftrans.cpp:134-151 | wide pdf is non-negative and gives every active lane its scalar density; a disabled context, or a packet in which no lane passes the gate, gives every lane 0; otherwise (always on JIT, on a packet once some lane passes the gate) an inactive lane gets its hemisphere-selected density, unmasked |
| Lanes.EvalPdfWide | mitsuba3/src/bsdfs/difftrans.cpp:153-174 | wide eval_pdf gives every lane exactly its scalar pair |
| LanesProperties.PdfWideInactiveLane | mitsuba3/src/bsdfs/difftrans.cpp:142-150 | with diffuse transmission enabled and one lane passing the gate, an inactive lane on opposite sides gets abs(cos_theta_o)/pi > 0 from wide pdf, where scalar pdf gives 0 |
| LanesProperties.WideFusionOnActiveLanes | mitsuba3/src/bsdfs/difftrans.cpp:162-173 | in a wide call, the value part of eval_pdf equals wide eval on every lane, and the density part equals wide pdf on every active lane |
| LanesProperties.WideFusionBreaksOnInactiveLane | mitsuba3/src/bsdfs/difftrans.cpp:142-173 | once one lane passes the gate, an inactive lane on opposite sides gets density 0 from wide eval_pdf but a different (positive) density from wide pdf |
| LanesProperties.SampleWideFlipsEveryLane | mitsuba3/src/bsdfs/difftrans.cpp:100-103 | as written, every lane's drawn z is negated: on JIT always, on a packet once one active lane has cos_theta_i > 0 |
| LanesProperties.SampleWideWithoutCandidates | mitsuba3/src/bsdfs/difftrans.cpp:100-103 | on a packet with no active front-lit lane, the wide sampler agrees with the per-lane one |
| LanesProperties.SinglePacketLaneIsScalar | mitsuba3/src/bsdfs/difftrans.cpp:100-103 | on a packet of one lane, any_or<true> over the candidate mask is that lane's own decision, so the wide sampler returns exactly the scalar result |
| LanesProperties.JitSampleStaysOnIncidentSide | mitsuba3/src/bsdfs/difftrans.cpp:100-104 | as written on JIT, an active lane with cos_theta_i < 0 and an upward draw gets wo.z < 0, pdf > 0 and the full weight, while pdf and eval at wo are zero, and the result differs from the per-lane one |
| LanesProperties.PacketSampleStaysOnIncidentSide | mitsuba3/src/bsdfs/difftrans.cpp:100-104 | as written on a packet, a front-lit lane makes a back-lit lane beside it report pdf > 0 and the full weight for a direction whose pdf is 0 |
| LanesProperties.SampleLanesConsistent | mitsuba3/src/bsdfs/difftrans.cpp:97-104 | with the flip taken per lane, every active, non-grazing lane with pdf > 0 reports the density pdf gives its direction |

## Findings

| source | as written | input that shows it | evidently intended | confidence | as-written member | corrected member |
|---|---|---|---|---|---|---|
| mitsuba3/src/bsdfs/difftrans.cpp:100-103 | the flip of the sampled z is decided once per call by `dr::any_or<true>(m0)` and applied to every lane; on a JIT array this is always true | a JIT call with one active lane, cos_theta_i < 0 and a draw with z > 0: wo ends up on the incident side with pdf > 0 and the full weight, while pdf at wo is 0 | negate z only on the lanes where `active && cos_theta_i > 0` | medium (not executed) | LanesProperties.JitSampleStaysOnIncidentSide | LanesProperties.SampleLanesConsistent |

The as-written wide sampler is `Lanes.SampleWide`. The corrected one is
`Lanes.SampleLanes`, which takes the flip lane by lane through the scalar
`DiffTrans.Sample`. The rest of the model uses the scalar routine.
`PacketSampleStaysOnIncidentSide` shows the same defect on a packet.

## Left out

- Floating-point rounding: values are reals and 1/pi is exact to twenty digits. The properties are about signs and equalities.
- Wide builds are modelled as sequences of independent lanes. Dr.Jit's own evaluation model (tracing, kernel fusion, automatic differentiation) is not modelled.
- The internals of `warp::square_to_cosine_hemisphere` are not modelled. It is a parameter whose images lie on or above the tangent plane; that they are unit vectors is not assumed.
- The internals of the transmittance texture are not modelled, and the texture is modelled as independent of the mask passed to `m_transmittance->eval`. `eval` and `eval_pdf` mask the result afterwards as the code does, but `eval_diffuse_reflectance` returns the lookup unmasked, so a texture that honours its mask could give an inactive lane a value this model does not.
- `DiffTrans.EvalDiffuseReflectance`: states only non-negativity in its own contract; that it returns the raw transmittance is stated by `SampleWeightIsDiffuseReflectance` through the sample weight.
- `depolarizer`, polarisation and profiler phases: no behaviour in an unpolarised model.
- `MI_MASKED_FUNCTION`: its definition is not part of this model. The wide model assumes that it passes the mask through unchanged (see the modelling choices above).
- `traverse` (parameter registration), `to_string`, `dr::set_attr`, the plugin and class macros, and `Properties` parsing beyond the transmittance default: host plumbing with nothing to verify.

=== FILE: bsdf.dfy ===
/** The parts of the host's scattering-model interface that the diffuse
    transmitter touches: capability flags, the evaluation context, the surface
    interaction, the sample record and the transmittance texture. */
module BSDFBase {
  import opened Geometry
  import opened Spectra

  /** The capability flags of a scattering model. A flag set is a `set<BSDFFlag>`;
      the empty set plays the role of the zero flag word. */
  datatype BSDFFlag =
    | Null
    | DiffuseReflection
    | DiffuseTransmission
    | GlossyReflection
    | GlossyTransmission
    | DeltaReflection
    | DeltaTransmission
    | Anisotropic
    | SpatiallyVarying
    | NonSymmetric
    | FrontSide
    | BackSide
    | NeedsDifferentials

  /** What the caller's light-transport strategy currently asks for: the lobe
      types it enables, and either one selected component or all of them. */
  datatype BSDFContext = BSDFContext(typeMask: set<BSDFFlag>, component: ComponentSelection)

  datatype ComponentSelection = AllComponents | Only(index: nat)

  /** Whether lobe type `flag` of component `index` is enabled by the context. */
  predicate IsEnabled(ctx: BSDFContext, flag: BSDFFlag, index: nat) {
    && flag in ctx.typeMask
    && (ctx.component.AllComponents? || ctx.component.index == index)
  }

  /** The per-call surface record: the hit point and its texture coordinates
      (used by texture lookups) and the incident direction in local coordinates. */
  datatype SurfaceInteraction = SurfaceInteraction(p: Vec3, uv: Point2, wi: Vec3)

  /** A spatially varying, non-negative spectral field evaluated at an interaction. */
  type Texture = f: SurfaceInteraction -> Spectrum | forall si :: NonNegative(f(si))
    witness (si: SurfaceInteraction) => Zero()

  /** A texture that is the same value everywhere. */
  function ConstantTexture(v: real): (t: Texture)
    requires v >= 0.0
    ensures forall si :: t(si) == Uniform(v)
  {
    (si: SurfaceInteraction) => Uniform(v)
  }

  /** The record a sampling routine fills in. */
  datatype BSDFSample = BSDFSample(
    wo: Vec3,
    pdf: real,
    eta: real,
    sampledType: set<BSDFFlag>,
    sampledComponent: nat)

  /** The all-zero sample record. */
  function ZeroSample(): (bs: BSDFSample)
    ensures bs.wo == Vec3(0.0, 0.0, 0.0) && bs.pdf == 0.0 && bs.eta == 0.0
    ensures bs.sampledType == {} && bs.sampledComponent == 0
  {
    BSDFSample(Vec3(0.0, 0.0, 0.0), 0.0, 0.0, {}, 0)
  }
}

=== FILE: difftrans.dfy ===
/** The diffuse transmitter: a non-reflective material that scatters all light
    entering from one side into a cosine-weighted (Lambertian) lobe on the other
    side. Scalar variant: every call handles one lane, so a mask is a `bool`. */
module DiffTrans {
  import opened Geometry
  import opened Spectra
  import opened BSDFBase

  /** The reciprocal of pi. Only its positivity matters to the proofs. */
  const InvPi: real := 0.31830988618379067154

  /** The default transmittance used when the scene gives none. */
  const DefaultTransmittance: real := 0.5

  /** How the scene description supplies the transmittance: not at all, or as a
      texture (a constant spectrum is a constant texture). */
  datatype TransmittanceParam = Unset | Given(texture: Texture)

  datatype DiffuseTransmitter = DiffuseTransmitter(
    transmittance: Texture,
    flags: set<BSDFFlag>,
    components: seq<set<BSDFFlag>>)

  /** Builds the material from its scene parameters. */
  function New(param: TransmittanceParam): (b: DiffuseTransmitter)
    ensures b.flags == {DiffuseTransmission, FrontSide, BackSide}
    ensures b.components == [b.flags]
    ensures param.Given? ==> b.transmittance == param.texture
    ensures param.Unset? ==> forall si :: b.transmittance(si) == Uniform(DefaultTransmittance)
  {
    var t := match param
      case Unset => ConstantTexture(DefaultTransmittance)
      case Given(tex) => tex;
    var flags := {DiffuseTransmission, FrontSide, BackSide};
    DiffuseTransmitter(t, flags, [flags])
  }

  /** The gate shared by the evaluation routines: the lane is active, the
      directions lie strictly on opposite sides of the surface, and the context
      enables diffuse transmission of component 0. */
  predicate Transmits(ctx: BSDFContext, si: SurfaceInteraction, wo: Vec3, active: bool) {
    && active
    && CosTheta(si.wi) * CosTheta(wo) < 0.0
    && IsEnabled(ctx, DiffuseTransmission, 0)
  }

  /** Draws an outgoing direction and returns it with its density and the
      sample weight. `warp` stands for the cosine-weighted hemisphere warp;
      `sample1` is accepted and ignored, as the material has one lobe. */
  function Sample(b: DiffuseTransmitter, ctx: BSDFContext, si: SurfaceInteraction,
                  sample1: real, sample2: Point2, active: bool, warp: HemisphereWarp)
    : (r: (BSDFSample, Spectrum))
    // A disabled context yields the zero record and no energy, whatever the mask.
    ensures !IsEnabled(ctx, DiffuseTransmission, 0) ==> r.0 == ZeroSample() && r.1 == Zero()
    // Otherwise the warped direction keeps its tangent components ...
    ensures IsEnabled(ctx, DiffuseTransmission, 0) ==>
      r.0.wo.x == warp(sample2).x && r.0.wo.y == warp(sample2).y
    // ... and is sent below the surface exactly when an active lane arrives from the front.
    ensures IsEnabled(ctx, DiffuseTransmission, 0) && active && CosTheta(si.wi) > 0.0 ==>
      r.0.wo.z == -warp(sample2).z <= 0.0
    ensures IsEnabled(ctx, DiffuseTransmission, 0) && !(active && CosTheta(si.wi) > 0.0) ==>
      r.0.wo.z == warp(sample2).z >= 0.0
    // The density is the cosine-weighted one of the returned direction.
    ensures IsEnabled(ctx, DiffuseTransmission, 0) ==>
      r.0.pdf == Abs(CosTheta(r.0.wo)) * InvPi && r.0.pdf >= 0.0
    ensures IsEnabled(ctx, DiffuseTransmission, 0) ==>
      && r.0.eta == 1.0
      && r.0.sampledType == {DiffuseTransmission}
      && r.0.sampledComponent == 0
    // The weight is the unweighted transmittance on valid samples and zero elsewhere.
    ensures active && r.0.pdf > 0.0 ==> r.1 == b.transmittance(si)
    ensures !(active && r.0.pdf > 0.0) ==> r.1 == Zero()
  {
    if !IsEnabled(ctx, DiffuseTransmission, 0) then
      (ZeroSample(), Zero())
    else
      DrawTransmitted(b, si, sample2, active, warp, active && CosTheta(si.wi) > 0.0)
  }

  /** The part of sampling that follows the hemisphere decision: the drawn
      direction, negated in z when `flip` holds, its density, the fixed record
      fields and the weight masked by `active && pdf > 0`. */
  function DrawTransmitted(b: DiffuseTransmitter, si: SurfaceInteraction, sample2: Point2,
                           active: bool, warp: HemisphereWarp, flip: bool)
    : (r: (BSDFSample, Spectrum))
    ensures r.0.wo.x == warp(sample2).x && r.0.wo.y == warp(sample2).y
    ensures flip ==> r.0.wo.z == -warp(sample2).z <= 0.0
    ensures !flip ==> r.0.wo.z == warp(sample2).z >= 0.0
    ensures r.0.pdf == Abs(CosTheta(r.0.wo)) * InvPi && r.0.pdf >= 0.0
    ensures r.0.eta == 1.0 && r.0.sampledType == {DiffuseTransmission} && r.0.sampledComponent == 0
    ensures active && r.0.pdf > 0.0 ==> r.1 == b.transmittance(si)
    ensures !(active && r.0.pdf > 0.0) ==> r.1 == Zero()
  {
    var drawn := warp(sample2);
    var wo := if flip then FlipZ(drawn) else drawn;
    var pdf := Abs(CosTheta(wo)) * InvPi;
    var bs := ZeroSample().(wo := wo, pdf := pdf, eta := 1.0,
                            sampledType := {DiffuseTransmission}, sampledComponent := 0);
    (bs, Masked(b.transmittance(si), active && pdf > 0.0))
  }

  /** The scattered energy for the direction pair (si.wi, wo), cosine included. */
  function Eval(b: DiffuseTransmitter, ctx: BSDFContext, si: SurfaceInteraction,
                wo: Vec3, active: bool): (r: Spectrum)
    ensures !Transmits(ctx, si, wo, active) ==> r == Zero()
    ensures Transmits(ctx, si, wo, active) ==>
      forall c :: 0 <= c < Channels ==>
        r[c] == b.transmittance(si)[c] * InvPi * Abs(CosTheta(wo))
    ensures NonNegative(r)
  {
    var cosThetaI := CosTheta(si.wi);
    var cosThetaO := CosTheta(wo);
    var active' := active && cosThetaI * cosThetaO < 0.0;
    if !active' || !IsEnabled(ctx, DiffuseTransmission, 0) then
      Zero()
    else
      GatedValue(b, si, wo, active')
  }

  /** The cosine-weighted transmittance `T(si) / pi * |cos_theta_o|`, masked by `gate`. */
  function GatedValue(b: DiffuseTransmitter, si: SurfaceInteraction, wo: Vec3, gate: bool)
    : (r: Spectrum)
    ensures !gate ==> r == Zero()
    ensures gate ==> forall c :: 0 <= c < Channels ==>
      r[c] == b.transmittance(si)[c] * InvPi * Abs(CosTheta(wo))
    ensures NonNegative(r)
  {
    Masked(Scale(Scale(b.transmittance(si), InvPi), Abs(CosTheta(wo))), gate)
  }

  /** The cosine density of `wo` when the gate passes, zero otherwise. */
  function Pdf(b: DiffuseTransmitter, ctx: BSDFContext, si: SurfaceInteraction,
               wo: Vec3, active: bool): (r: real)
    ensures r >= 0.0
    ensures r > 0.0 <==> Transmits(ctx, si, wo, active)
    ensures Transmits(ctx, si, wo, active) ==> r == Abs(CosTheta(wo)) * InvPi
  {
    var cosThetaI := CosTheta(si.wi);
    var cosThetaO := CosTheta(wo);
    var active' := active && cosThetaI * cosThetaO < 0.0;
    if !active' || !IsEnabled(ctx, DiffuseTransmission, 0) then
      0.0
    else
      HemisphereSelectedPdf(si, wo)
  }

  /** The cosine density where the directions lie on opposite sides, zero
      elsewhere; the mask plays no part in this selection. */
  function HemisphereSelectedPdf(si: SurfaceInteraction, wo: Vec3): (r: real)
    ensures r >= 0.0
    ensures r > 0.0 <==> CosTheta(si.wi) * CosTheta(wo) < 0.0
    ensures CosTheta(si.wi) * CosTheta(wo) < 0.0 ==> r == Abs(CosTheta(wo)) * InvPi
  {
    var pdf := Abs(CosTheta(wo)) * InvPi;
    if CosTheta(si.wi) * CosTheta(wo) < 0.0 then pdf else 0.0
  }

  /** Energy and density in one call. */
  function EvalPdf(b: DiffuseTransmitter, ctx: BSDFContext, si: SurfaceInteraction,
                   wo: Vec3, active: bool): (r: (Spectrum, real))
    ensures !Transmits(ctx, si, wo, active) ==> r.0 == Zero() && r.1 == 0.0
    ensures Transmits(ctx, si, wo, active) ==>
      && r.1 == Abs(CosTheta(wo)) * InvPi
      && forall c :: 0 <= c < Channels ==>
           r.0[c] == b.transmittance(si)[c] * InvPi * Abs(CosTheta(wo))
  {
    var cosThetaI := CosTheta(si.wi);
    var cosThetaO := CosTheta(wo);
    var active' := active && cosThetaI * cosThetaO < 0.0;
    if !active' || !IsEnabled(ctx, DiffuseTransmission, 0) then
      (Zero(), 0.0)
    else
      var pdf := Abs(cosThetaO) * InvPi;
      (GatedValue(b, si, wo, active'), if active' then pdf else 0.0)
  }

  /** The raw transmittance, with neither cosine nor normalisation, for callers
      that want an albedo estimate. The texture is modelled as independent of
      the mask, so `active` plays no part here. */
  function EvalDiffuseReflectance(b: DiffuseTransmitter, si: SurfaceInteraction, active: bool)
    : (r: Spectrum)
    ensures NonNegative(r)
  {
    b.transmittance(si)
  }
}

=== FILE: difftrans_properties.dfy ===
/** Properties relating the four scattering routines of the diffuse transmitter
    to one another: gating, fusion, sample/density consistency, energy bounds. */
module DiffTransProperties {
  import opened Geometry
  import opened Spectra
  import opened BSDFBase
  import opened DiffTrans

  /** The evaluation gate passes exactly for an active lane in an enabled
      context whose two directions lie strictly on opposite sides of the
      surface, in either order: light is transmitted front to back and back to
      front alike, and grazing directions never pass. */
  lemma TransmitsIffOppositeSides(ctx: BSDFContext, si: SurfaceInteraction, wo: Vec3, active: bool)
    ensures Transmits(ctx, si, wo, active) <==>
      && active
      && IsEnabled(ctx, DiffuseTransmission, 0)
      && ((CosTheta(si.wi) > 0.0 && CosTheta(wo) < 0.0) || (CosTheta(si.wi) < 0.0 && CosTheta(wo) > 0.0))
  {
  }

  /** Pairs on the same side of the surface (or grazing) carry neither energy
      nor density, in every routine and for every context and mask. */
  lemma SameHemisphereIsZero(b: DiffuseTransmitter, ctx: BSDFContext, si: SurfaceInteraction,
                             wo: Vec3, active: bool)
    requires CosTheta(si.wi) * CosTheta(wo) >= 0.0
    ensures Eval(b, ctx, si, wo, active) == Zero()
    ensures Pdf(b, ctx, si, wo, active) == 0.0
    ensures EvalPdf(b, ctx, si, wo, active) == (Zero(), 0.0)
  {
  }

  /** An inactive lane is inert: no energy, no density, and a sample that is
      neither flipped nor weighted. */
  lemma InactiveLaneIsInert(b: DiffuseTransmitter, ctx: BSDFContext, si: SurfaceInteraction,
                            wo: Vec3, sample1: real, sample2: Point2, warp: HemisphereWarp)
    ensures Eval(b, ctx, si, wo, false) == Zero()
    ensures Pdf(b, ctx, si, wo, false) == 0.0
    ensures EvalPdf(b, ctx, si, wo, false) == (Zero(), 0.0)
    ensures Sample(b, ctx, si, sample1, sample2, false, warp).1 == Zero()
    ensures IsEnabled(ctx, DiffuseTransmission, 0) ==>
      Sample(b, ctx, si, sample1, sample2, false, warp).0.wo == warp(sample2)
  {
  }

  /** Sampling does not zero the record of an inactive lane: the direction is
      drawn, and the density, eta and sampled type are filled in as for an
      active lane; only the weight is zero. */
  lemma InactiveSampleKeepsRecord(b: DiffuseTransmitter, ctx: BSDFContext, si: SurfaceInteraction,
                                  sample1: real, sample2: Point2, warp: HemisphereWarp)
    requires IsEnabled(ctx, DiffuseTransmission, 0)
    requires warp(sample2).z > 0.0
    ensures Sample(b, ctx, si, sample1, sample2, false, warp).0.pdf == warp(sample2).z * InvPi
    ensures Sample(b, ctx, si, sample1, sample2, false, warp).0.pdf > 0.0
    ensures Sample(b, ctx, si, sample1, sample2, false, warp).0 != ZeroSample()
    ensures Sample(b, ctx, si, sample1, sample2, false, warp).1 == Zero()
  {
  }

  /** A context that disables diffuse transmission silences every routine,
      whatever the mask and the directions. */
  lemma DisabledContextIsZero(b: DiffuseTransmitter, ctx: BSDFContext, si: SurfaceInteraction,
                              wo: Vec3, sample1: real, sample2: Point2, active: bool,
                              warp: HemisphereWarp)
    requires !IsEnabled(ctx, DiffuseTransmission, 0)
    ensures Sample(b, ctx, si, sample1, sample2, active, warp) == (ZeroSample(), Zero())
    ensures Sample(b, ctx, si, sample1, sample2, active, warp).0.pdf == 0.0
    ensures Eval(b, ctx, si, wo, active) == Zero()
    ensures Pdf(b, ctx, si, wo, active) == 0.0
    ensures EvalPdf(b, ctx, si, wo, active) == (Zero(), 0.0)
  {
  }

  /** The fused routine agrees exactly with the two separate ones, on every input. */
  lemma EvalPdfIsEvalAndPdf(b: DiffuseTransmitter, ctx: BSDFContext,
                            si: SurfaceInteraction, wo: Vec3, active: bool)
    ensures EvalPdf(b, ctx, si, wo, active) == (Eval(b, ctx, si, wo, active), Pdf(b, ctx, si, wo, active))
  {
  }

  /** The energy is the density times the transmittance: Eval / Pdf is the
      albedo, channel by channel, on every input. */
  lemma EvalIsPdfTimesTransmittance(b: DiffuseTransmitter, ctx: BSDFContext,
                                    si: SurfaceInteraction, wo: Vec3, active: bool)
    ensures forall c :: 0 <= c < Channels ==>
      Eval(b, ctx, si, wo, active)[c] == b.transmittance(si)[c] * Pdf(b, ctx, si, wo, active)
  {
  }

  /** On a valid sample away from grazing incidence, the returned direction
      leaves through the side opposite the incident one. */
  lemma SampleCrossesSurface(b: DiffuseTransmitter, ctx: BSDFContext, si: SurfaceInteraction,
                             sample1: real, sample2: Point2, warp: HemisphereWarp)
    requires IsEnabled(ctx, DiffuseTransmission, 0)
    requires CosTheta(si.wi) != 0.0
    requires Sample(b, ctx, si, sample1, sample2, true, warp).0.pdf > 0.0
    ensures Transmits(ctx, si, Sample(b, ctx, si, sample1, sample2, true, warp).0.wo, true)
  {
  }

  /** The density reported by `Sample` is what `Pdf` returns for the sampled
      direction, whenever the sample is valid and the incidence is not grazing. */
  lemma SamplePdfConsistency(b: DiffuseTransmitter, ctx: BSDFContext, si: SurfaceInteraction,
                             sample1: real, sample2: Point2, warp: HemisphereWarp)
    requires IsEnabled(ctx, DiffuseTransmission, 0)
    requires CosTheta(si.wi) != 0.0
    requires Sample(b, ctx, si, sample1, sample2, true, warp).0.pdf > 0.0
    ensures Pdf(b, ctx, si, Sample(b, ctx, si, sample1, sample2, true, warp).0.wo, true)
         == Sample(b, ctx, si, sample1, sample2, true, warp).0.pdf
  {
    SampleCrossesSurface(b, ctx, si, sample1, sample2, warp);
  }

  /** The sample weight is the importance-sampling ratio Eval / Pdf for the
      sampled direction: the outgoing cosine cancels against the density. */
  lemma SampleWeightConsistency(b: DiffuseTransmitter, ctx: BSDFContext, si: SurfaceInteraction,
                                sample1: real, sample2: Point2, warp: HemisphereWarp)
    requires IsEnabled(ctx, DiffuseTransmission, 0)
    requires CosTheta(si.wi) != 0.0
    requires Sample(b, ctx, si, sample1, sample2, true, warp).0.pdf > 0.0
    ensures forall c :: 0 <= c < Channels ==>
      Eval(b, ctx, si, Sample(b, ctx, si, sample1, sample2, true, warp).0.wo, true)[c]
        == Sample(b, ctx, si, sample1, sample2, true, warp).1[c]
           * Sample(b, ctx, si, sample1, sample2, true, warp).0.pdf
  {
    var (bs, value) := Sample(b, ctx, si, sample1, sample2, true, warp);
    SamplePdfConsistency(b, ctx, si, sample1, sample2, warp);
    EvalIsPdfTimesTransmittance(b, ctx, si, bs.wo, true);
  }

  /** The weight of a valid sample is the raw diffuse-reflectance estimate. */
  lemma SampleWeightIsDiffuseReflectance(b: DiffuseTransmitter, ctx: BSDFContext,
                                         si: SurfaceInteraction, sample1: real, sample2: Point2,
                                         active: bool, warp: HemisphereWarp)
    requires active && Sample(b, ctx, si, sample1, sample2, active, warp).0.pdf > 0.0
    ensures Sample(b, ctx, si, sample1, sample2, active, warp).1
         == EvalDiffuseReflectance(b, si, active)
  {
  }

  /** At grazing incidence the consistency fails: `Sample` leaves the drawn
      direction above the surface and reports a positive density and a full
      weight, while `Pdf` and `Eval` give that same direction nothing. */
  lemma GrazingSampleMismatch(b: DiffuseTransmitter, ctx: BSDFContext, si: SurfaceInteraction,
                              sample1: real, sample2: Point2, warp: HemisphereWarp)
    requires IsEnabled(ctx, DiffuseTransmission, 0)
    requires CosTheta(si.wi) == 0.0
    requires warp(sample2).z > 0.0
    ensures Sample(b, ctx, si, sample1, sample2, true, warp).0.pdf > 0.0
    ensures Sample(b, ctx, si, sample1, sample2, true, warp).1 == b.transmittance(si)
    ensures Pdf(b, ctx, si, Sample(b, ctx, si, sample1, sample2, true, warp).0.wo, true) == 0.0
    ensures Eval(b, ctx, si, Sample(b, ctx, si, sample1, sample2, true, warp).0.wo, true) == Zero()
  {
  }

  /** For a unit outgoing direction and a transmittance within [0, 1] on every
      channel, the energy lies within [0, 1/pi] and the density within [0, 1/pi]. */
  lemma EnergyBound(b: DiffuseTransmitter, ctx: BSDFContext, si: SurfaceInteraction,
                    wo: Vec3, active: bool)
    requires IsUnit(wo)
    requires WithinBounds(b.transmittance(si), 0.0, 1.0)
    ensures WithinBounds(Eval(b, ctx, si, wo, active), 0.0, InvPi)
    ensures 0.0 <= Pdf(b, ctx, si, wo, active) <= InvPi
  {
    // The outgoing cosine of a unit direction is at most one in magnitude.
    UnitCosineBound(wo);
  }

  /** The declared capabilities cover what sampling produces: the sampled type
      of every record is among the declared flags and among those of the
      component it names, and that component exists. No reflective lobe is
      declared, and none is ever sampled. */
  lemma SamplesStayWithinCapabilities(param: TransmittanceParam, ctx: BSDFContext,
                                      si: SurfaceInteraction, sample1: real, sample2: Point2,
                                      active: bool, warp: HemisphereWarp)
    ensures Sample(New(param), ctx, si, sample1, sample2, active, warp).0.sampledType <= New(param).flags
    ensures Sample(New(param), ctx, si, sample1, sample2, active, warp).0.sampledComponent
            < |New(param).components|
    ensures Sample(New(param), ctx, si, sample1, sample2, active, warp).0.sampledType
            <= New(param).components[Sample(New(param), ctx, si, sample1, sample2, active, warp).0.sampledComponent]
    ensures DiffuseReflection !in New(param).flags && GlossyReflection !in New(param).flags
    ensures DiffuseReflection !in Sample(New(param), ctx, si, sample1, sample2, active, warp).0.sampledType
  {
  }

  /** The worked example of normal incidence: the upward draw (0, 0, 1) is sent
      straight down with density 1/pi and the unweighted transmittance, and the
      evaluation routines agree with it at that direction. */
  lemma NormalIncidence(b: DiffuseTransmitter, ctx: BSDFContext, si: SurfaceInteraction,
                        sample1: real, sample2: Point2, warp: HemisphereWarp)
    requires IsEnabled(ctx, DiffuseTransmission, 0)
    requires si.wi == Vec3(0.0, 0.0, 1.0)
    requires warp(sample2) == Vec3(0.0, 0.0, 1.0)
    ensures Sample(b, ctx, si, sample1, sample2, true, warp).0.wo == Vec3(0.0, 0.0, -1.0)
    ensures Sample(b, ctx, si, sample1, sample2, true, warp).0.pdf == InvPi
    ensures Sample(b, ctx, si, sample1, sample2, true, warp).1 == b.transmittance(si)
    ensures Pdf(b, ctx, si, Vec3(0.0, 0.0, -1.0), true) == InvPi
    ensures Eval(b, ctx, si, Vec3(0.0, 0.0, -1.0), true) == Scale(b.transmittance(si), InvPi)
  {
  }
}

=== FILE: geometry.dfy ===
/** Directions and sample points in the local shading frame, where the
    surface normal is the z axis. Floating-point values are modelled as reals. */
module Geometry {

  /** A 3-vector in local shading coordinates. */
  datatype Vec3 = Vec3(x: real, y: real, z: real)

  /** A point of the unit square, as consumed by the sample warps. */
  datatype Point2 = Point2(x: real, y: real)

  /** Cosine of the polar angle: in the local frame this is the z component. */
  function CosTheta(v: Vec3): (c: real) {
    v.z
  }

  function Abs(r: real): (a: real)
    ensures a >= 0.0
    ensures a == r || a == -r
  {
    if r < 0.0 then -r else r
  }

  /** The squared Euclidean length, used to state that a direction is a unit vector. */
  function SquaredNorm(v: Vec3): (n: real)
    ensures n >= v.z * v.z
  {
    v.x * v.x + v.y * v.y + v.z * v.z
  }

  predicate IsUnit(v: Vec3) {
    SquaredNorm(v) == 1.0
  }

  /** Mirror a direction through the tangent plane: the z component changes sign. */
  function FlipZ(v: Vec3): (w: Vec3)
    ensures w.x == v.x && w.y == v.y && w.z == -v.z
  {
    v.(z := -v.z)
  }

  /** A warp of the unit square onto the upper hemisphere, standing for the
      cosine-weighted hemisphere warp of the host library. Its internals are not
      modelled; all that is relied on is that every image lies on or above the
      tangent plane. */
  type HemisphereWarp = f: Point2 -> Vec3 | forall p :: f(p).z >= 0.0
    witness (p: Point2) => Vec3(0.0, 0.0, 1.0)

  /** A unit direction has a cosine of magnitude at most one. */
  lemma UnitCosineBound(v: Vec3)
    requires IsUnit(v)
    ensures Abs(CosTheta(v)) <= 1.0
  {
  }
}

=== FILE: lanes.dfy ===
/** The diffuse transmitter in a wide build, where one call carries many lanes
    and each lane has its own interaction, sample and mask. A wide build reduces
    a mask to a single branch decision in two places: `dr::any_or<true>` before
    the hemisphere flip of sampling, and `dr::none_or<false>` before the early
    return of the evaluation routines. */
module Lanes {
  import opened Geometry
  import opened Spectra
  import opened BSDFBase
  import opened DiffTrans

  /** A packet build evaluates a mask reduction; a JIT build cannot without
      forcing evaluation, and takes the given default instead. */
  datatype Backend = Packet | Jit

  /** `dr::any_or<default>(m)`. */
  function AnyOr(backend: Backend, default: bool, m: seq<bool>): (r: bool)
    ensures backend.Packet? ==> (r <==> exists i :: 0 <= i < |m| && m[i])
    ensures backend.Jit? ==> r == default
  {
    match backend
    case Packet => true in m
    case Jit => default
  }

  /** `dr::none_or<default>(m)`. */
  function NoneOr(backend: Backend, default: bool, m: seq<bool>): (r: bool)
    ensures backend.Packet? ==> (r <==> forall i :: 0 <= i < |m| ==> !m[i])
    ensures backend.Jit? ==> r == default
  {
    match backend
    case Packet => true !in m
    case Jit => default
  }

  /** One lane of a sampling call. */
  datatype SampleQuery = SampleQuery(si: SurfaceInteraction, sample1: real, sample2: Point2, active: bool)

  /** One lane of an evaluation call. */
  datatype EvalQuery = EvalQuery(si: SurfaceInteraction, wo: Vec3, active: bool)

  /** The scalar sampling routine on lane `q`. */
  function SampleOne(b: DiffuseTransmitter, ctx: BSDFContext, q: SampleQuery, warp: HemisphereWarp)
    : (r: (BSDFSample, Spectrum))
  {
    Sample(b, ctx, q.si, q.sample1, q.sample2, q.active, warp)
  }

  /** The lanes that ought to be sent through the surface: `active && cos_theta_i > 0`. */
  function FlipCandidates(qs: seq<SampleQuery>): (m: seq<bool>)
    ensures |m| == |qs|
    ensures forall i :: 0 <= i < |qs| ==> m[i] == (qs[i].active && CosTheta(qs[i].si.wi) > 0.0)
  {
    seq(|qs|, i requires 0 <= i < |qs| => qs[i].active && CosTheta(qs[i].si.wi) > 0.0)
  }

  /** The drawing step on every lane, lane `i` flipped according to `flips[i]`. */
  function DrawLanes(b: DiffuseTransmitter, qs: seq<SampleQuery>, warp: HemisphereWarp,
                     flips: seq<bool>): (rs: seq<(BSDFSample, Spectrum)>)
    requires |flips| == |qs|
    ensures |rs| == |qs|
    ensures forall i :: 0 <= i < |qs| ==>
      rs[i] == DrawTransmitted(b, qs[i].si, qs[i].sample2, qs[i].active, warp, flips[i])
  {
    if qs == [] then []
    else
      [DrawTransmitted(b, qs[0].si, qs[0].sample2, qs[0].active, warp, flips[0])]
        + DrawLanes(b, qs[1..], warp, flips[1..])
  }

  /** Sampling as the wide build is written: one flip decision, taken by
      `any_or<true>` over the candidate lanes, is applied to every lane. A lane
      whose own decision agrees with the call's gets its scalar result; any
      other lane gets the scalar direction mirrored through the surface, with
      the same density, record fields and weight. */
  function SampleWide(b: DiffuseTransmitter, ctx: BSDFContext, qs: seq<SampleQuery>,
                      warp: HemisphereWarp, backend: Backend): (rs: seq<(BSDFSample, Spectrum)>)
    ensures |rs| == |qs|
    ensures !IsEnabled(ctx, DiffuseTransmission, 0) ==>
      forall i :: 0 <= i < |qs| ==> rs[i] == (ZeroSample(), Zero())
    ensures IsEnabled(ctx, DiffuseTransmission, 0) ==>
      forall i :: 0 <= i < |qs| && FlipCandidates(qs)[i] == AnyOr(backend, true, FlipCandidates(qs)) ==>
        rs[i] == SampleOne(b, ctx, qs[i], warp)
    ensures IsEnabled(ctx, DiffuseTransmission, 0) ==>
      forall i :: 0 <= i < |qs| && FlipCandidates(qs)[i] != AnyOr(backend, true, FlipCandidates(qs)) ==>
        && rs[i].0.wo == FlipZ(SampleOne(b, ctx, qs[i], warp).0.wo)
        && rs[i].0.pdf == SampleOne(b, ctx, qs[i], warp).0.pdf
        && rs[i].0.eta == SampleOne(b, ctx, qs[i], warp).0.eta
        && rs[i].0.sampledType == SampleOne(b, ctx, qs[i], warp).0.sampledType
        && rs[i].0.sampledComponent == SampleOne(b, ctx, qs[i], warp).0.sampledComponent
        && rs[i].1 == SampleOne(b, ctx, qs[i], warp).1
  {
    if !IsEnabled(ctx, DiffuseTransmission, 0) then
      seq(|qs|, i => (ZeroSample(), Zero()))
    else
      var m0 := FlipCandidates(qs);
      var flip := AnyOr(backend, true, m0);
      DrawLanes(b, qs, warp, seq(|qs|, i => flip))
  }

  /** Sampling with the flip taken lane by lane, as the scalar build does: every
      lane gets what the scalar routine gives it. */
  function SampleLanes(b: DiffuseTransmitter, ctx: BSDFContext, qs: seq<SampleQuery>,
                       warp: HemisphereWarp): (rs: seq<(BSDFSample, Spectrum)>)
    ensures |rs| == |qs|
    ensures forall i :: 0 <= i < |qs| ==> rs[i] == SampleOne(b, ctx, qs[i], warp)
  {
    if !IsEnabled(ctx, DiffuseTransmission, 0) then
      seq(|qs|, i => (ZeroSample(), Zero()))
    else
      DrawLanes(b, qs, warp, FlipCandidates(qs))
  }

  /** The evaluation gate of every lane: `active && cos_theta_i * cos_theta_o < 0`. */
  function GateLanes(qs: seq<EvalQuery>): (m: seq<bool>)
    ensures |m| == |qs|
    ensures forall i :: 0 <= i < |qs| ==>
      m[i] == (qs[i].active && CosTheta(qs[i].si.wi) * CosTheta(qs[i].wo) < 0.0)
  {
    seq(|qs|, i requires 0 <= i < |qs| => qs[i].active && CosTheta(qs[i].si.wi) * CosTheta(qs[i].wo) < 0.0)
  }

  /** The masked cosine-weighted transmittance of every lane. */
  function GatedValues(b: DiffuseTransmitter, qs: seq<EvalQuery>, gates: seq<bool>)
    : (rs: seq<Spectrum>)
    requires |gates| == |qs|
    ensures |rs| == |qs|
    ensures forall i :: 0 <= i < |qs| ==> rs[i] == GatedValue(b, qs[i].si, qs[i].wo, gates[i])
  {
    if qs == [] then []
    else [GatedValue(b, qs[0].si, qs[0].wo, gates[0])] + GatedValues(b, qs[1..], gates[1..])
  }

  /** The density of every lane, selected by its hemisphere test alone. */
  function SelectedPdfs(qs: seq<EvalQuery>): (rs: seq<real>)
    ensures |rs| == |qs|
    ensures forall i :: 0 <= i < |qs| ==> rs[i] == HemisphereSelectedPdf(qs[i].si, qs[i].wo)
  {
    if qs == [] then []
    else [HemisphereSelectedPdf(qs[0].si, qs[0].wo)] + SelectedPdfs(qs[1..])
  }

  /** The density of every lane, selected by its gate. */
  function GatedPdfs(qs: seq<EvalQuery>, gates: seq<bool>): (rs: seq<real>)
    requires |gates| == |qs|
    ensures |rs| == |qs|
    ensures forall i :: 0 <= i < |qs| ==>
      rs[i] == (if gates[i] then Abs(CosTheta(qs[i].wo)) * InvPi else 0.0)
  {
    if qs == [] then []
    else [if gates[0] then Abs(CosTheta(qs[0].wo)) * InvPi else 0.0] + GatedPdfs(qs[1..], gates[1..])
  }

  /** When a wide call returns early, no lane passes the scalar gate either. */
  lemma EarlyReturnIsUngated(ctx: BSDFContext, qs: seq<EvalQuery>, backend: Backend)
    requires NoneOr(backend, false, GateLanes(qs)) || !IsEnabled(ctx, DiffuseTransmission, 0)
    ensures forall i :: 0 <= i < |qs| ==> !Transmits(ctx, qs[i].si, qs[i].wo, qs[i].active)
  {
  }

  /** With diffuse transmission enabled, the per-lane gated values and
      densities are the scalar results of the lanes. */
  lemma GatedLanesAreScalar(b: DiffuseTransmitter, ctx: BSDFContext, qs: seq<EvalQuery>)
    requires IsEnabled(ctx, DiffuseTransmission, 0)
    ensures forall i :: 0 <= i < |qs| ==>
      GatedValues(b, qs, GateLanes(qs))[i] == Eval(b, ctx, qs[i].si, qs[i].wo, qs[i].active)
    ensures forall i :: 0 <= i < |qs| ==>
      GatedPdfs(qs, GateLanes(qs))[i] == Pdf(b, ctx, qs[i].si, qs[i].wo, qs[i].active)
    ensures forall i :: 0 <= i < |qs| && qs[i].active ==>
      SelectedPdfs(qs)[i] == Pdf(b, ctx, qs[i].si, qs[i].wo, qs[i].active)
  {
  }

  /** Evaluation as the wide build is written. The early return happens when
      the context disables diffuse transmission, and otherwise only when no
      lane passes the gate (packet) or never (JIT), but the result is
      masked lane by lane, so every lane gets exactly its scalar value: lanes do
      not influence one another, and inactive lanes get zero. */
  function EvalWide(b: DiffuseTransmitter, ctx: BSDFContext, qs: seq<EvalQuery>, backend: Backend)
    : (rs: seq<Spectrum>)
    ensures |rs| == |qs|
    ensures forall i :: 0 <= i < |qs| ==> rs[i] == Eval(b, ctx, qs[i].si, qs[i].wo, qs[i].active)
  {
    var active := GateLanes(qs);
    if NoneOr(backend, false, active) || !IsEnabled(ctx, DiffuseTransmission, 0) then
      EarlyReturnIsUngated(ctx, qs, backend);
      seq(|qs|, i => Zero())
    else
      GatedLanesAreScalar(b, ctx, qs);
      GatedValues(b, qs, active)
  }

  /** Density as the wide build is written. The final selection tests the
      hemispheres but not the mask, so an active lane gets its scalar density,
      while an inactive lane gets zero after the early return and the
      hemisphere-selected density otherwise. */
  function PdfWide(b: DiffuseTransmitter, ctx: BSDFContext, qs: seq<EvalQuery>, backend: Backend)
    : (rs: seq<real>)
    ensures |rs| == |qs|
    ensures forall i :: 0 <= i < |qs| ==> rs[i] >= 0.0
    ensures forall i :: 0 <= i < |qs| && qs[i].active ==>
      rs[i] == Pdf(b, ctx, qs[i].si, qs[i].wo, true)
    // The early return: a disabled context, or a packet in which no lane passes the gate.
    ensures !IsEnabled(ctx, DiffuseTransmission, 0) ==> forall i :: 0 <= i < |qs| ==> rs[i] == 0.0
    ensures backend.Packet? && (forall j :: 0 <= j < |qs| ==> !Transmits(ctx, qs[j].si, qs[j].wo, qs[j].active)) ==>
      forall i :: 0 <= i < |qs| ==> rs[i] == 0.0
    // Past it, an inactive lane gets the unmasked hemisphere selection.
    ensures IsEnabled(ctx, DiffuseTransmission, 0)
            && (backend.Jit? || exists j :: 0 <= j < |qs| && Transmits(ctx, qs[j].si, qs[j].wo, qs[j].active)) ==>
      forall i :: 0 <= i < |qs| && !qs[i].active ==> rs[i] == HemisphereSelectedPdf(qs[i].si, qs[i].wo)
  {
    var active := GateLanes(qs);
    if NoneOr(backend, false, active) || !IsEnabled(ctx, DiffuseTransmission, 0) then
      EarlyReturnIsUngated(ctx, qs, backend);
      seq(|qs|, i => 0.0)
    else
      GatedLanesAreScalar(b, ctx, qs);
      SelectedPdfs(qs)
  }

  /** Fused evaluation as the wide build is written: both parts are masked by
      the gate, so every lane gets its scalar pair. */
  function EvalPdfWide(b: DiffuseTransmitter, ctx: BSDFContext, qs: seq<EvalQuery>, backend: Backend)
    : (r: (seq<Spectrum>, seq<real>))
    ensures |r.0| == |qs| && |r.1| == |qs|
    ensures forall i :: 0 <= i < |qs| ==>
      (r.0[i], r.1[i]) == EvalPdf(b, ctx, qs[i].si, qs[i].wo, qs[i].active)
  {
    var active := GateLanes(qs);
    if NoneOr(backend, false, active) || !IsEnabled(ctx, DiffuseTransmission, 0) then
      EarlyReturnIsUngated(ctx, qs, backend);
      (seq(|qs|, i => Zero()), seq(|qs|, i => 0.0))
    else
      GatedLanesAreScalar(b, ctx, qs);
      (GatedValues(b, qs, active), GatedPdfs(qs, active))
  }
}

=== FILE: lanes_properties.dfy ===
/** How the wide routines relate to the scalar ones, lane by lane. */
module LanesProperties {
  import opened Geometry
  import opened Spectra
  import opened BSDFBase
  import opened DiffTrans
  import opened Lanes
  import DiffTransProperties

  /** An inactive lane is not masked by wide density: once the call does not
      return early (always on JIT, when some lane passes the gate on a packet),
      an inactive lane whose directions lie on opposite sides gets the cosine
      density, where the scalar routine gives zero. */
  lemma PdfWideInactiveLane(b: DiffuseTransmitter, ctx: BSDFContext, qs: seq<EvalQuery>,
                            backend: Backend, i: nat, j: nat)
    requires IsEnabled(ctx, DiffuseTransmission, 0)
    requires i < |qs| && j < |qs|
    requires !qs[i].active && CosTheta(qs[i].si.wi) * CosTheta(qs[i].wo) < 0.0
    requires qs[j].active && CosTheta(qs[j].si.wi) * CosTheta(qs[j].wo) < 0.0
    ensures PdfWide(b, ctx, qs, backend)[i] == Abs(CosTheta(qs[i].wo)) * InvPi
    ensures PdfWide(b, ctx, qs, backend)[i] > 0.0
    ensures Pdf(b, ctx, qs[i].si, qs[i].wo, false) == 0.0
  {
    // Lane j passes the gate, so the call does not return early.
    assert GateLanes(qs)[j];
  }

  /** In a wide call the fused routine agrees with the separate ones on every
      active lane: the value part always, the density part where the lane is active. */
  lemma WideFusionOnActiveLanes(b: DiffuseTransmitter, ctx: BSDFContext, qs: seq<EvalQuery>,
                                backend: Backend)
    ensures EvalPdfWide(b, ctx, qs, backend).0 == EvalWide(b, ctx, qs, backend)
    ensures forall i :: 0 <= i < |qs| && qs[i].active ==>
      EvalPdfWide(b, ctx, qs, backend).1[i] == PdfWide(b, ctx, qs, backend)[i]
  {
    forall i | 0 <= i < |qs|
      ensures EvalPdfWide(b, ctx, qs, backend).0[i] == EvalWide(b, ctx, qs, backend)[i]
      ensures qs[i].active ==> EvalPdfWide(b, ctx, qs, backend).1[i] == PdfWide(b, ctx, qs, backend)[i]
    {
      DiffTransProperties.EvalPdfIsEvalAndPdf(b, ctx, qs[i].si, qs[i].wo, qs[i].active);
    }
  }

  /** On an inactive lane the fusion breaks: once one lane passes the gate, an
      inactive lane on opposite sides gets density zero from the fused routine
      but the cosine density from the separate one. */
  lemma WideFusionBreaksOnInactiveLane(b: DiffuseTransmitter, ctx: BSDFContext,
                                       qs: seq<EvalQuery>, backend: Backend, i: nat, j: nat)
    requires IsEnabled(ctx, DiffuseTransmission, 0)
    requires i < |qs| && j < |qs|
    requires !qs[i].active && CosTheta(qs[i].si.wi) * CosTheta(qs[i].wo) < 0.0
    requires qs[j].active && CosTheta(qs[j].si.wi) * CosTheta(qs[j].wo) < 0.0
    ensures EvalPdfWide(b, ctx, qs, backend).1[i] == 0.0
    ensures EvalPdfWide(b, ctx, qs, backend).1[i] != PdfWide(b, ctx, qs, backend)[i]
  {
    PdfWideInactiveLane(b, ctx, qs, backend, i, j);
  }

  /** The wide flip is all-or-nothing: on JIT always, and on a packet as soon
      as one active lane arrives from the front, every lane's draw is negated. */
  lemma SampleWideFlipsEveryLane(b: DiffuseTransmitter, ctx: BSDFContext, qs: seq<SampleQuery>,
                                 warp: HemisphereWarp, backend: Backend)
    requires IsEnabled(ctx, DiffuseTransmission, 0)
    requires backend.Jit? ||
             exists j :: 0 <= j < |qs| && qs[j].active && CosTheta(qs[j].si.wi) > 0.0
    ensures forall i :: 0 <= i < |qs| ==>
      SampleWide(b, ctx, qs, warp, backend)[i].0.wo.z == -warp(qs[i].sample2).z
  {
  }

  /** On a packet in which no active lane arrives from the front, the wide
      routine agrees with the per-lane one. */
  lemma SampleWideWithoutCandidates(b: DiffuseTransmitter, ctx: BSDFContext, qs: seq<SampleQuery>,
                                    warp: HemisphereWarp)
    requires forall j :: 0 <= j < |qs| ==> !(qs[j].active && CosTheta(qs[j].si.wi) > 0.0)
    ensures SampleWide(b, ctx, qs, warp, Packet) == SampleLanes(b, ctx, qs, warp)
  {
  }

  /** On a packet of one lane the reduction `any_or<true>` is that lane's own
      mask, so the wide sampler is the scalar one. */
  lemma SinglePacketLaneIsScalar(b: DiffuseTransmitter, ctx: BSDFContext, q: SampleQuery,
                                 warp: HemisphereWarp)
    ensures SampleWide(b, ctx, [q], warp, Packet) == [SampleOne(b, ctx, q, warp)]
  {
  }

  /** The two reductions are dual: `none_or<d>(m)` is `!any_or<!d>(m)` on both backends. */
  lemma NoneOrIsNotAnyOr(backend: Backend, d: bool, m: seq<bool>)
    ensures NoneOr(backend, d, m) == !AnyOr(backend, !d, m)
  {
  }

  /** The wide flip as written sends a back-lit lane's direction to its own
      side. On JIT a single active lane with `cos_theta_i < 0` and an upward draw
      comes back with `wo.z < 0`, a positive density and the full weight, yet
      the density and energy routines give that direction nothing, and the
      per-lane result differs. */
  lemma JitSampleStaysOnIncidentSide(b: DiffuseTransmitter, ctx: BSDFContext, q: SampleQuery,
                                     warp: HemisphereWarp)
    requires IsEnabled(ctx, DiffuseTransmission, 0)
    requires q.active && CosTheta(q.si.wi) < 0.0
    requires warp(q.sample2).z > 0.0
    ensures SampleWide(b, ctx, [q], warp, Jit)[0].0.wo.z < 0.0
    ensures SampleWide(b, ctx, [q], warp, Jit)[0].0.pdf > 0.0
    ensures SampleWide(b, ctx, [q], warp, Jit)[0].1 == b.transmittance(q.si)
    ensures Pdf(b, ctx, q.si, SampleWide(b, ctx, [q], warp, Jit)[0].0.wo, true) == 0.0
    ensures Eval(b, ctx, q.si, SampleWide(b, ctx, [q], warp, Jit)[0].0.wo, true) == Zero()
    ensures SampleWide(b, ctx, [q], warp, Jit) != SampleLanes(b, ctx, [q], warp)
  {
    var r := SampleWide(b, ctx, [q], warp, Jit)[0];
    SampleWideFlipsEveryLane(b, ctx, [q], warp, Jit);
    assert r.0.wo.z == -warp(q.sample2).z;
    assert CosTheta(q.si.wi) * CosTheta(r.0.wo) > 0.0 by {
      DiffTransProperties.TransmitsIffOppositeSides(ctx, q.si, r.0.wo, true);
    }
    var s := SampleLanes(b, ctx, [q], warp)[0];
    assert s.0.wo.z == warp(q.sample2).z;
  }

  /** The same defect on a packet: a front-lit active lane makes the flip fire,
      and a back-lit active lane beside it is sent to its own side with a
      positive density and the full weight. */
  lemma PacketSampleStaysOnIncidentSide(b: DiffuseTransmitter, ctx: BSDFContext,
                                        front: SampleQuery, back: SampleQuery, warp: HemisphereWarp)
    requires IsEnabled(ctx, DiffuseTransmission, 0)
    requires front.active && CosTheta(front.si.wi) > 0.0
    requires back.active && CosTheta(back.si.wi) < 0.0
    requires warp(back.sample2).z > 0.0
    ensures SampleWide(b, ctx, [front, back], warp, Packet)[1].0.pdf > 0.0
    ensures SampleWide(b, ctx, [front, back], warp, Packet)[1].1 == b.transmittance(back.si)
    ensures Pdf(b, ctx, back.si, SampleWide(b, ctx, [front, back], warp, Packet)[1].0.wo, true) == 0.0
    ensures SampleWide(b, ctx, [front, back], warp, Packet)[1]
         != SampleLanes(b, ctx, [front, back], warp)[1]
  {
    var qs := [front, back];
    assert qs[0] == front;
    SampleWideFlipsEveryLane(b, ctx, qs, warp, Packet);
    var r := SampleWide(b, ctx, qs, warp, Packet)[1];
    assert r.0.wo.z == -warp(back.sample2).z;
    assert CosTheta(back.si.wi) * CosTheta(r.0.wo) > 0.0 by {
      DiffTransProperties.TransmitsIffOppositeSides(ctx, back.si, r.0.wo, true);
    }
    assert SampleLanes(b, ctx, qs, warp)[1].0.wo.z == warp(back.sample2).z;
  }

  /** With the flip taken lane by lane, every valid, non-grazing lane reports
      the density that the density routine gives its direction. */
  lemma SampleLanesConsistent(b: DiffuseTransmitter, ctx: BSDFContext, qs: seq<SampleQuery>,
                              warp: HemisphereWarp)
    requires IsEnabled(ctx, DiffuseTransmission, 0)
    ensures forall i :: 0 <= i < |qs| && qs[i].active && CosTheta(qs[i].si.wi) != 0.0
                        && SampleLanes(b, ctx, qs, warp)[i].0.pdf > 0.0 ==>
      Pdf(b, ctx, qs[i].si, SampleLanes(b, ctx, qs, warp)[i].0.wo, true)
        == SampleLanes(b, ctx, qs, warp)[i].0.pdf
  {
    var rs := SampleLanes(b, ctx, qs, warp);
    forall i | 0 <= i < |qs| && qs[i].active && CosTheta(qs[i].si.wi) != 0.0 && rs[i].0.pdf > 0.0
      ensures Pdf(b, ctx, qs[i].si, rs[i].0.wo, true) == rs[i].0.pdf
    {
      var q := qs[i];
      assert rs[i] == Sample(b, ctx, q.si, q.sample1, q.sample2, true, warp);
      DiffTransProperties.SamplePdfConsistency(b, ctx, q.si, q.sample1, q.sample2, warp);
    }
  }
}

=== FILE: spectrum.dfy ===
/** Spectral values: one real per wavelength channel. The spectral variant of
    the renderer carries four wavelength samples per value. */
module Spectra {

  const Channels: nat := 4

  type Spectrum = s: seq<real> | |s| == Channels
    witness seq(Channels, c => 0.0)

  /** The spectrum that is `v` on every channel (a scalar broadcast). */
  function Uniform(v: real): (s: Spectrum)
    ensures forall c :: 0 <= c < Channels ==> s[c] == v
  {
    seq(Channels, c => v)
  }

  function Zero(): (z: Spectrum)
    ensures forall c :: 0 <= c < Channels ==> z[c] == 0.0
  {
    Uniform(0.0)
  }

  /** Channel-wise product with a scalar. */
  function Scale(s: Spectrum, k: real): (t: Spectrum)
    ensures forall c :: 0 <= c < Channels ==> t[c] == s[c] * k
  {
    seq(Channels, c requires 0 <= c < Channels => s[c] * k)
  }

  /** The masked value `s & m`: the spectrum itself where the mask holds and
      zero where it does not. */
  function Masked(s: Spectrum, m: bool): (t: Spectrum)
    ensures m ==> t == s
    ensures !m ==> forall c :: 0 <= c < Channels ==> t[c] == 0.0
  {
    if m then s else Zero()
  }

  predicate NonNegative(s: Spectrum) {
    forall c :: 0 <= c < Channels ==> s[c] >= 0.0
  }

  /** Every channel lies in the closed interval [lo, hi]. */
  predicate WithinBounds(s: Spectrum, lo: real, hi: real) {
    forall c :: 0 <= c < Channels ==> lo <= s[c] <= hi
  }
}
